=== FILE: README.md ===
# Tennis court booking ledger in Dafny

This project models the booking core of a small tennis-court booking backend. Users reserve one
hourly slot per day on one of two court types, `rubber` or `hard`. They can list their upcoming
bookings and cancel them. Once the HTTP handlers and SQL statements are stripped away, what
remains is a sequential state machine over an immutable ledger value (`Ledger.Ledger`), which
holds three things:

- the `users` table, as a map from user id to first name;
- the `bookings` table, as a sequence of rows `(id, user, court, date, slot)` in insertion order;
- the counter that hands out booking ids, starting at 1.

Every request is one atomic, pure step. A failing request returns only its `Error`, so the ledger
it was given stands unchanged.

| module | file | models |
|---|---|---|
| `Lex` | `lex.dfy` | text comparison of dates and slot labels (binary collation) |
| `TimeSlots` | `time_slots.dfy` | `generate_time_slots` |
| `Ledger` | `ledger.dfy` | the two tables, the id counter, errors and the store invariant `Valid` |
| `Availability` | `availability.dfy` | `get_slots` (the slot board for a date) |
| `Bookings` | `bookings.dfy` | `create_booking`, `cancel_booking` |
| `MyBookings` | `my_bookings.dfy` | `get_my_bookings` |
| `Scenario` | `scenario.dfy` | two concrete request sequences |

The storage schema declares no uniqueness constraint on bookings other than the primary key on
`id`. It also declares the foreign key from a booking's user to the users table. The two rules
"one booking per user per date" and "one booking per court, date and slot" are enforced only by
the checks that `create_booking` runs before it inserts. `Ledger.Valid` combines four parts:

- ids that increase in insertion order, as the `SERIAL` key hands them out;
- the user foreign key;
- the two rules above.

The lemmas prove that every successful create or cancel preserves `Valid`.

In these points the model follows the code as written:

- The user write is `INSERT OR IGNORE`. A returning user keeps the first name that was stored
  first; it is not overwritten by the latest one.
- Apart from the primary key on `id`, the schema has no uniqueness constraint, and it has no
  check on the court type. The pre-checks are the only enforcement of the two booking rules.
- `create_booking` validates neither the court type nor the time slot. A booking for an unlisted
  court is stored, never shows on the board, and still uses up the user's day
  (`Scenario.UnlistedCourtAccepted`).
- `create_booking` answers with a success message, not with the new booking id. The model
  returns the new ledger, and the new id is the old counter value.

## Model

| member | source | states |
|---|---|---|
| TimeSlots.SlotsFrom | main.py:26-29 | the labels from hour `h` up to 24 number `24 - h`, and entry `i` is the label of hour `h + i` |
| TimeSlots.Generate | main.py:24-30 | exactly 18 labels; label `i` is the slot of hour `6 + i` |
| TimeSlots.Pad2 | main.py:27-29 | `{hour:02d}`: an hour below 100 is written as exactly two decimal digits that read back as that hour |
| TimeSlots.Label | main.py:27-29 | the slot label of hour `h` is `"{h:02d}:00-{h+1:02d}:00"` |
| TimeSlots.LabelRoundTrip | main.py:27-29 | every label has the shape `"HH:00-HH:00"` in 11 characters, with decimal digits at positions 0, 1, 6 and 7; the start hour and end hour `h + 1` read back from it |
| TimeSlots.LabelsOrdered | main.py:27-29 | thanks to the zero-padding, a label of an earlier hour sorts strictly before a label of a later hour as text |
| TimeSlots.GenerateStrictlyIncreasing | main.py:24-30 | the generated labels are strictly increasing as text, so they are pairwise distinct |
| TimeSlots.GenerateInjective | main.py:26-29 | two generated labels are equal only at the same position |
| TimeSlots.GenerateEnds | main.py:26-30 | the first label is `"06:00-07:00"` and the last is `"23:00-24:00"` |
| Ledger.Empty | database.py:19-35 | the empty store has no users and no bookings, hands out ids from 1, and satisfies every invariant |
| Ledger.StatusCode | main.py:233-292 | both booking refusals are reported as 400 and only a missing booking as 404 |
| Ledger.Occupies | main.py:195 | the `court_type = ? AND date = ? AND time_slot = ?` condition of the slot lookups (also main.py:238) |
| Ledger.OnDayOf | main.py:230 | the `user_id = ? AND date = ?` condition of the same-day check |
| Ledger.OwnedBy | main.py:286 | the `id = ? AND user_id = ?` condition of the cancel |
| Ledger.IdsAscending | database.py:28 | booking ids are positive, below the next value the `SERIAL` sequence hands out, and increase in insertion order, so they are distinct |
| Ledger.UsersKnown | database.py:33 | every booking's user is a stored user, as the foreign key declares |
| Ledger.OnePerUserDay | main.py:228-234 | no two bookings share both user and date, the rule the same-day check maintains |
| Ledger.OnePerSlot | main.py:236-242 | no two bookings share court, date and slot, the rule the slot check maintains |
| Ledger.Valid | database.py:26-35 | the store invariant: the primary key and foreign key of the bookings table plus the two rules the checks at main.py:228-242 maintain |
| Ledger.IndexOf | main.py:198-200 | the first-row lookup finds nothing exactly when no row matches; otherwise it returns the first matching row |
| Ledger.IdIdentifies | database.py:28 | under the invariant, two rows with the same id are the same row |
| Availability.Courts | main.py:186 | the court types `rubber` then `hard`, in the order the board lists them |
| Availability.NameOf | main.py:194 | the left-joined first name is present exactly when the booking's user is stored, and is then that user's stored name |
| Availability.SlotState | main.py:191-217 | an entry is free exactly when no booking holds its court, date and slot; a free entry has no name and no id; a taken entry carries a holding booking's id and its user's joined first name |
| Availability.Row | main.py:190-217 | one court's entries: 18 of them, entry `s` for the `s`-th generated slot, each the state of that court and slot |
| Availability.BoardFor | main.py:189-217 | the board has 18 entries per court, courts outer and slots inner, and each entry reflects the bookings for its own court and slot |
| Availability.GetSlots | main.py:180-220 | 36 entries for `rubber` then `hard`; entry `k` has court `k / 18`, slot `k % 18` and the requested date; it is free exactly when no booking occupies it; a taken entry names a holding booking's id and user |
| Availability.EntryAt | main.py:189-190 | entry `k` of the board is the state of court `k / 18` at slot `k % 18` |
| Availability.BoardEntry | main.py:189-190 | the entry for court `c` and slot `s` is found at position `18 * c + s` |
| Availability.SingleBookingBoard | main.py:191-217 | with a single booking on a listed court and slot, the entry for that court and slot is the only taken one on its date's board |
| Availability.GetSlotsPairsUnique | main.py:185-190 | no court/slot pair appears twice on the board |
| Availability.TakenEntryNamesTheBooking | main.py:191-208 | under the invariant, a taken entry carries the id of THE booking holding the slot and its user's stored first name |
| Bookings.InsertOrIgnore | main.py:244-248 | the user is stored after the write; every existing user keeps the first name stored first; a new user gets the supplied name |
| Bookings.CreateBooking | main.py:223-259 | refuses "already booked that day" exactly when the user holds a booking on that date, on any court; refuses "slot taken" exactly when that check passes and the court/date/slot is held; otherwise it appends one booking with the next id, leaves the earlier rows intact and advances the counter |
| Bookings.Delete | main.py:285-288 | a row is left exactly when it was there and does not carry both that id and that user; the row count is unchanged exactly when no row matched, and never grows |
| Bookings.CancelBooking | main.py:280-297 | fails with not-found exactly when no booking has that id and that user; on success users and counter are unchanged and exactly the matching rows are gone |
| Bookings.RefusalStatus | main.py:223-297 | a refused create is answered with status 400 and a refused cancel with status 404 |
| Bookings.CreatePreservesValid | main.py:228-254 | a successful create keeps ids ascending, one booking per user and date, one booking per court/date/slot, and every booking's user stored |
| Bookings.CreateTakesSlot | main.py:244-254 | after a successful create, the requested court/date/slot is taken by the new id, under the user's first-stored name |
| Bookings.CreateShowsOnBoard | main.py:244-254 | after a successful create of a listed court and slot, the board shows that entry taken, with the new id and the user's first-stored name |
| Bookings.SameDayRebookRefused | main.py:228-234 | after a successful create, any later request by that user for that date is refused as already booked, whatever the court |
| Bookings.TakenSlotRefused | main.py:236-242 | after a successful create, another user free on that date who asks for the same court/date/slot is refused as taken |
| Bookings.DeleteNothing | main.py:285-290 | a delete that matches no row leaves the rows as they were |
| Bookings.DeleteOnly | main.py:285-288 | when only one row matches, the delete removes exactly that row and keeps the order of the others |
| Bookings.CancelRemovesExactlyOne | main.py:285-297 | under the invariant, a successful cancel removes exactly one booking, the one with that id and owner |
| Bookings.RemoveAtKeepsValid | main.py:285-288 | removing any one row keeps every invariant |
| Bookings.CancelPreservesValid | main.py:285-297 | a successful cancel keeps every invariant |
| Bookings.CancelByOtherUserRefused | main.py:285-292 | cancelling an existing booking as a different user is refused as not found, and nothing is deleted |
| Bookings.CancelFreesSlot | main.py:285-297 | the owner's cancel succeeds, and afterwards the slot the booking held is free |
| Bookings.CreateThenCancelRestores | main.py:251-297 | cancelling a booking just created, by its owner and new id, restores the booking rows exactly |
| Lex.Less | main.py:270-271 | text order: a proper prefix sorts first, otherwise the first differing character decides |
| Lex.LessEq | main.py:270 | the `>=` of `date >= date('now')`: equal, or strictly before in text order |
| Lex.Irreflexive | main.py:270-271 | no text sorts strictly before itself |
| Lex.Asymmetric | main.py:270-271 | two texts are never each strictly before the other |
| Lex.Transitive | main.py:270-271 | the text order is transitive |
| Lex.Total | main.py:270-271 | any two different texts are ordered one way or the other |
| MyBookings.View | main.py:268 | a listed booking carries the selected columns `id, court_type, date, time_slot` of its row |
| MyBookings.IsUpcoming | main.py:270 | a row is selected when it is the user's and its date is not before today as text |
| MyBookings.KeyLe | main.py:271 | the `ORDER BY date, time_slot` order: by date, and by slot among equal dates |
| MyBookings.KeyTotal | main.py:271 | any two listed bookings are comparable in the (date, slot) order |
| MyBookings.KeyTransitive | main.py:271 | the (date, slot) order is transitive |
| MyBookings.KeyAntisymmetric | main.py:271 | two views tie in the (date, slot) order only when both date and slot are equal |
| MyBookings.Upcoming | main.py:267-270 | the selected rows are exactly the user's bookings dated on or after today; under one-booking-per-user-and-date their dates are distinct |
| MyBookings.Insert | main.py:271 | inserting into a sorted list keeps it sorted and adds exactly that element |
| MyBookings.Sort | main.py:271 | the result is sorted by (date, slot) and is a permutation of the input |
| MyBookings.GetMyBookings | main.py:262-277 | the result is sorted by (date, slot), is a permutation of the selected rows, and contains exactly the views of the user's bookings dated today or later; under the invariant dates strictly increase |
| MyBookings.GetMyBookingsExact | main.py:267-277 | under the invariant, a booking is listed exactly when it belongs to the user and is not dated before today |
| Scenario.BoardAfterBooking | main.py:180-259 | on an empty store, booking rubber 09:00-10:00 for user 1 succeeds; the board then shows 35 free entries and entry 3 taken, with that user's name and booking id 1 |
| Scenario.CancelAfterBooking | main.py:223-297 | after that booking, cancelling as another user fails with not-found; cancelling as the owner succeeds and all 36 entries are free again |
| Scenario.UnlistedCourtAccepted | main.py:223-254 | a booking for an unlisted court and slot is accepted, never appears on the board, and still blocks the user's day |

## Left out

- The HTML page of `read_root`, the CORS middleware, `load_dotenv`/`BOT_TOKEN` and the `uvicorn`
  entry point are HTTP and UI plumbing, so they are not modelled.
- Connection handling in `database.py` is I/O. Its table definitions give only the record shapes
  and the user foreign key.
- SQL dialect: the statements use SQLite syntax (`?` placeholders, `INSERT OR IGNORE`,
  `date('now')`), while `database.py` connects through a PostgreSQL driver. The model gives the
  statements their SQLite meaning, and text comparison is binary collation (code point order).
  Booking ids are the exception: they follow the PostgreSQL meaning of the `id SERIAL PRIMARY
  KEY` column in `database.py`, a sequence from 1 that is never reused. Under SQLite, a column
  declared `SERIAL` is not auto-numbered, so `id` would stay NULL and the cancel's `id = ?`
  could never match. Whether the statements run against that driver is not modelled.
- Transactions, commit and rollback are not modelled. Each request is one atomic step, and
  check-then-insert races between concurrent requests are out of scope.
- `date('now')` is a clock reading. The current date is the `today` parameter of
  `MyBookings.GetMyBookings`.
- Integer widths are not modelled. `user_id` is `BIGINT` and ids are `SERIAL`; both are
  unbounded integers here.
- Row order of an unordered query: when several rows match, `fetchone` in `get_slots` is modelled
  as returning the first row in insertion order. Under `Valid` at most one row matches, so this
  choice makes no difference.
- Row order among equal sort keys: `ORDER BY date, time_slot` leaves ties unordered, and the
  model's insertion sort keeps insertion order for them. Under `Valid` a user has no two
  bookings on one date, so no ties occur.
- `get_slots` and `get_my_bookings` are pure reads. They are functions of the ledger and return
  no ledger, so they cannot change it.
- Bookings.CreateBooking: the model assumes a complete, well-typed request body. The handler
  takes a plain dict and never validates it against its request model. In the code, a missing
  key raises `KeyError` and FastAPI answers 500. Because `first_name` is read only after both
  checks, a body without it gets a 400 when a check refuses and a 500 otherwise. A JSON `null`
  `user_id` or `date` never matches `= ?`, so the same-day check cannot refuse it. None of these
  paths is modelled.
- Error message texts and HTTP plumbing are abstracted. Failures are the `Error` constructors,
  and `Ledger.StatusCode` gives the HTTP status each one is reported with.
- `static/script.js`, the browser client, and `models.py`, which holds request and response
  shapes without behaviour, are not part of this model.

=== FILE: availability.dfy ===
/**
 The slot board for one date: every court type crossed with every hourly
 slot, each marked free or taken according to the stored bookings.
 */
module Availability {
  import opened Ledger
  import TimeSlots

  /** The court types, in the order the board lists them. */
  const Courts: seq<string> := ["rubber", "hard"]

  /** One entry of the board; `bookedBy` and `bookingId` are set only for a taken slot. */
  datatype SlotStatus = SlotStatus(
    court: string,
    date: string,
    slot: string,
    isAvailable: bool,
    bookedBy: Option<string>,
    bookingId: Option<int>)

  /** The first name joined to a booking's user, absent when no user row matches. */
  function NameOf(users: map<int, string>, userId: int): (name: Option<string>)
    ensures name.Some? <==> userId in users
    ensures name.Some? ==> name.value == users[userId]
  {
    if userId in users then Some(users[userId]) else None
  }

  /** The entry for one court, date and slot, from the first booking that occupies it. */
  function SlotState(l: Ledger, court: string, date: string, slot: string): (st: SlotStatus)
    ensures st.court == court && st.date == date && st.slot == slot
    ensures st.isAvailable <==>
              forall i :: 0 <= i < |l.bookings| ==> !Occupies(l.bookings[i], court, date, slot)
    ensures st.isAvailable ==> st.bookedBy == None && st.bookingId == None
    ensures !st.isAvailable ==>
              exists i :: 0 <= i < |l.bookings| && Occupies(l.bookings[i], court, date, slot)
                && st.bookingId == Some(l.bookings[i].id)
                && st.bookedBy == NameOf(l.users, l.bookings[i].userId)
  {
    match IndexOf(l.bookings, (b: Booking) => Occupies(b, court, date, slot))
    case None => SlotStatus(court, date, slot, true, None, None)
    case Some(i) =>
      var b := l.bookings[i];
      SlotStatus(court, date, slot, false, NameOf(l.users, b.userId), Some(b.id))
  }

  /** The entries of one court, one per slot in generation order. */
  function Row(l: Ledger, court: string, date: string): (r: seq<SlotStatus>)
    ensures |r| == TimeSlots.SlotCount
    ensures forall s :: 0 <= s < |r| ==>
              r[s].court == court && r[s].slot == TimeSlots.Generate()[s]
              && r[s] == SlotState(l, court, date, r[s].slot)
  {
    var slots := TimeSlots.Generate();
    seq(|slots|, s requires 0 <= s < |slots| => SlotState(l, court, date, slots[s]))
  }

  /** The entries of `courts` in order, each court followed through all slots. */
  function BoardFor(l: Ledger, courts: seq<string>, date: string): (r: seq<SlotStatus>)
    ensures |r| == TimeSlots.SlotCount * |courts|
    ensures forall k :: 0 <= k < |r| ==>
              r[k].court == courts[k / TimeSlots.SlotCount]
              && r[k].slot == TimeSlots.Generate()[k % TimeSlots.SlotCount]
    ensures forall k :: 0 <= k < |r| ==> r[k] == SlotState(l, r[k].court, date, r[k].slot)
  {
    if |courts| == 0 then []
    else
      var row := Row(l, courts[0], date);
      var rest := BoardFor(l, courts[1..], date);
      BoardStep(l, courts, date, row, rest);
      row + rest
  }

  /** Putting one court's row in front of the other courts' board yields the board of all of them. */
  lemma BoardStep(l: Ledger, courts: seq<string>, date: string, row: seq<SlotStatus>, rest: seq<SlotStatus>)
    requires |courts| > 0
    requires |row| == 18
    requires forall s :: 0 <= s < |row| ==>
               row[s].court == courts[0] && row[s].slot == TimeSlots.Generate()[s]
               && row[s] == SlotState(l, row[s].court, date, row[s].slot)
    requires |rest| == 18 * (|courts| - 1)
    requires forall k :: 0 <= k < |rest| ==>
               rest[k].court == courts[1..][k / 18] && rest[k].slot == TimeSlots.Generate()[k % 18]
               && rest[k] == SlotState(l, rest[k].court, date, rest[k].slot)
    ensures |row + rest| == 18 * |courts|
    ensures forall k :: 0 <= k < |row + rest| ==>
              (row + rest)[k].court == courts[k / 18]
              && (row + rest)[k].slot == TimeSlots.Generate()[k % 18]
              && (row + rest)[k] == SlotState(l, (row + rest)[k].court, date, (row + rest)[k].slot)
  {
    var r := row + rest;
    forall k | 0 <= k < |r|
      ensures r[k].court == courts[k / 18] && r[k].slot == TimeSlots.Generate()[k % 18]
      ensures r[k] == SlotState(l, r[k].court, date, r[k].slot)
    {
      RowMajor(k);
      if k < 18 {
        assert r[k] == row[k];
      } else {
        assert r[k] == rest[k - 18];
        assert courts[1..][(k - 18) / 18] == courts[k / 18];
      }
    }
  }

  /**
   Index arithmetic of a row-major board with rows of 18 entries. The literal
   18 here and in the board lemmas is `TimeSlots.SlotCount`, written out to
   keep the division and remainder cheap for the solver.
   */
  lemma RowMajor(k: int)
    requires 0 <= k
    ensures k < 18 ==> k / 18 == 0 && k % 18 == k
    ensures 18 <= k ==> (k - 18) / 18 == k / 18 - 1 && (k - 18) % 18 == k % 18
  {
  }

  /** The board for `date`: 36 entries, courts outer and slots inner, each reflecting the bookings. */
  function GetSlots(l: Ledger, date: string): (r: seq<SlotStatus>)
    ensures |r| == |Courts| * TimeSlots.SlotCount == 36
    ensures forall k :: 0 <= k < |r| ==>
              r[k].court == Courts[k / TimeSlots.SlotCount]
              && r[k].slot == TimeSlots.Generate()[k % TimeSlots.SlotCount]
              && r[k].date == date
    ensures forall k :: 0 <= k < |r| ==>
              (r[k].isAvailable <==>
                 forall i :: 0 <= i < |l.bookings| ==> !Occupies(l.bookings[i], r[k].court, date, r[k].slot))
    ensures forall k :: 0 <= k < |r| ==> r[k] == SlotState(l, r[k].court, date, r[k].slot)
    ensures forall k :: 0 <= k < |r| && r[k].isAvailable ==> r[k].bookedBy == None && r[k].bookingId == None
    ensures forall k :: 0 <= k < |r| && !r[k].isAvailable ==>
              exists i :: 0 <= i < |l.bookings| && Occupies(l.bookings[i], r[k].court, date, r[k].slot)
                && r[k].bookingId == Some(l.bookings[i].id)
                && r[k].bookedBy == NameOf(l.users, l.bookings[i].userId)
  {
    BoardFor(l, Courts, date)
  }

  /** Position of the entry for court number `c` and slot number `s` on the board. */
  function Position(c: int, s: int): int
  {
    TimeSlots.SlotCount * c + s
  }

  /** The entry for court number `c` and slot number `s` sits at `Position(c, s)`. */
  lemma BoardEntry(l: Ledger, date: string, c: int, s: int)
    requires 0 <= c < |Courts| && 0 <= s < TimeSlots.SlotCount
    ensures 0 <= Position(c, s) < |GetSlots(l, date)|
    ensures GetSlots(l, date)[Position(c, s)] == SlotState(l, Courts[c], date, TimeSlots.Generate()[s])
  {
    var k := Position(c, s);
    RowMajor(k);
    assert k / 18 == c && k % 18 == s;
  }

  /** Entry `k` of the board is the state of court `k / 18` at slot `k % 18`. */
  lemma EntryAt(l: Ledger, date: string, k: int)
    requires 0 <= k < |Courts| * TimeSlots.SlotCount
    ensures 0 <= k / 18 < |Courts| && 0 <= k % 18 < TimeSlots.SlotCount && k == Position(k / 18, k % 18)
    ensures GetSlots(l, date)[k] == SlotState(l, Courts[k / 18], date, TimeSlots.Generate()[k % 18])
  {
  }

  /** With a single booking, for a listed court and slot, exactly that booking's entry is taken. */
  lemma SingleBookingBoard(l: Ledger, c: int, s: int)
    requires |l.bookings| == 1
    requires 0 <= c < |Courts| && l.bookings[0].court == Courts[c]
    requires 0 <= s < TimeSlots.SlotCount && l.bookings[0].slot == TimeSlots.Generate()[s]
    ensures var board := GetSlots(l, l.bookings[0].date);
            forall k :: 0 <= k < |board| ==> (board[k].isAvailable <==> k != Position(c, s))
  {
    var b := l.bookings[0];
    forall k | 0 <= k < |Courts| * TimeSlots.SlotCount
      ensures GetSlots(l, b.date)[k].isAvailable <==> k != Position(c, s)
    {
      EntryAt(l, b.date, k);
      var c', s' := k / 18, k % 18;
      if Occupies(b, Courts[c'], b.date, TimeSlots.Generate()[s']) {
        assert c' == c by {
          assert Courts[0] != Courts[1];
        }
        TimeSlots.GenerateInjective(s', s);
      }
    }
  }

  /** No court/slot pair appears twice on the board. */
  lemma GetSlotsPairsUnique(l: Ledger, date: string)
    ensures forall j, k :: 0 <= j < k < |GetSlots(l, date)| ==>
              (GetSlots(l, date)[j].court, GetSlots(l, date)[j].slot)
              != (GetSlots(l, date)[k].court, GetSlots(l, date)[k].slot)
  {
    var r := GetSlots(l, date);
    TimeSlots.GenerateStrictlyIncreasing();
    forall j, k | 0 <= j < k < |r|
      ensures (r[j].court, r[j].slot) != (r[k].court, r[k].slot)
    {
      if j / 18 == k / 18 {
        assert j % 18 != k % 18;
        assert r[j].slot != r[k].slot;
      } else {
        assert r[j].court != r[k].court;
      }
    }
  }

  /** Under `Valid` a taken entry names the one booking holding the slot and its user's stored name. */
  lemma TakenEntryNamesTheBooking(l: Ledger, court: string, date: string, slot: string, i: int)
    requires Valid(l)
    requires 0 <= i < |l.bookings| && Occupies(l.bookings[i], court, date, slot)
    ensures !SlotState(l, court, date, slot).isAvailable
    ensures SlotState(l, court, date, slot).bookingId == Some(l.bookings[i].id)
    ensures SlotState(l, court, date, slot).bookedBy == Some(l.users[l.bookings[i].userId])
  {
    var st := SlotState(l, court, date, slot);
    var j :| 0 <= j < |l.bookings| && Occupies(l.bookings[j], court, date, slot)
               && st.bookingId == Some(l.bookings[j].id)
               && st.bookedBy == NameOf(l.users, l.bookings[j].userId);
    assert i == j;
  }
}

=== FILE: bookings.dfy ===
/**
 Writes to the booking store: the conflict-checked insert behind
 `POST /api/book` and the ownership-checked delete behind
 `DELETE /api/booking/{id}`. Each request is one atomic step; a failed
 request returns only its error, so the store stays as it was.
 */
module Bookings {
  import opened Ledger
  import Availability
  import TimeSlots

  /** `INSERT OR IGNORE` into the users table: a user already stored keeps the first name stored first. */
  function InsertOrIgnore(users: map<int, string>, userId: int, firstName: string): (r: map<int, string>)
    ensures r.Keys == users.Keys + {userId}
    ensures forall u :: u in users ==> r[u] == users[u]
    ensures userId !in users ==> r[userId] == firstName
  {
    if userId in users then users else users[userId := firstName]
  }

  /**
   The conflict-checked insert. It first refuses a second booking by the same
   user on the same date (any court), then a court/date/slot that is already
   held; otherwise it stores the user if absent and appends one booking with
   the next id. Court and slot are taken as given, without validation.
   */
  function CreateBooking(l: Ledger, req: BookingRequest): (r: Result<Ledger>)
    ensures r == Err(AlreadyBookedThatDay) <==>
              exists i :: 0 <= i < |l.bookings| && OnDayOf(l.bookings[i], req.userId, req.date)
    ensures r == Err(SlotTaken) <==>
              (forall i :: 0 <= i < |l.bookings| ==> !OnDayOf(l.bookings[i], req.userId, req.date))
              && exists i :: 0 <= i < |l.bookings| && Occupies(l.bookings[i], req.court, req.date, req.slot)
    ensures r.Err? ==> r.error != NotFound
    ensures r.Ok? ==>
              |r.value.bookings| == |l.bookings| + 1
              && r.value.bookings[..|l.bookings|] == l.bookings
              && r.value.bookings[|l.bookings|]
                 == Booking(l.nextId, req.userId, req.court, req.date, req.slot)
              && r.value.nextId == l.nextId + 1
    ensures r.Ok? ==>
              r.value.users.Keys == l.users.Keys + {req.userId}
              && (forall u :: u in l.users ==> r.value.users[u] == l.users[u])
              && (req.userId !in l.users ==> r.value.users[req.userId] == req.firstName)
  {
    if IndexOf(l.bookings, (b: Booking) => OnDayOf(b, req.userId, req.date)).Some? then
      Err(AlreadyBookedThatDay)
    else if IndexOf(l.bookings, (b: Booking) => Occupies(b, req.court, req.date, req.slot)).Some? then
      Err(SlotTaken)
    else
      var row := Booking(l.nextId, req.userId, req.court, req.date, req.slot);
      assert (l.bookings + [row])[..|l.bookings|] == l.bookings;
      Ok(Ledger(InsertOrIgnore(l.users, req.userId, req.firstName), l.bookings + [row], l.nextId + 1))
  }

  /**
   The rows left after `DELETE ... WHERE id = ? AND user_id = ?`, in their
   original order: exactly the rows that do not carry both that id and that user.
   */
  function Delete(bs: seq<Booking>, id: int, userId: int): (r: seq<Booking>)
    ensures forall b :: b in r <==> b in bs && !OwnedBy(b, id, userId)
    ensures |r| == |bs| <==> forall i :: 0 <= i < |bs| ==> !OwnedBy(bs[i], id, userId)
    ensures |r| <= |bs|
  {
    if |bs| == 0 then []
    else
      var rest := Delete(bs[1..], id, userId);
      assert forall i :: 0 <= i < |bs| - 1 ==> bs[1..][i] == bs[i + 1];
      assert forall b :: b in bs <==> b == bs[0] || b in bs[1..];
      if OwnedBy(bs[0], id, userId) then rest else [bs[0]] + rest
  }

  /**
   The ownership-checked delete: removes the bookings carrying both that id
   and that user; when no row was affected the request fails with `NotFound`.
   */
  function CancelBooking(l: Ledger, id: int, userId: int): (r: Result<Ledger>)
    ensures r.Err? <==> forall i :: 0 <= i < |l.bookings| ==> !OwnedBy(l.bookings[i], id, userId)
    ensures r.Err? ==> r.error == NotFound
    ensures r.Ok? ==> r.value.users == l.users && r.value.nextId == l.nextId
    ensures r.Ok? ==> forall b :: b in r.value.bookings <==> b in l.bookings && !OwnedBy(b, id, userId)
  {
    var remaining := Delete(l.bookings, id, userId);
    var rowCount := |l.bookings| - |remaining|;
    if rowCount == 0 then Err(NotFound) else Ok(l.(bookings := remaining))
  }

  /** A refused booking is reported as a bad request, a refused cancel as not found. */
  lemma RefusalStatus(l: Ledger, req: BookingRequest, id: int, userId: int)
    ensures CreateBooking(l, req).Err? ==> StatusCode(CreateBooking(l, req).error) == 400
    ensures CancelBooking(l, id, userId).Err? ==> StatusCode(CancelBooking(l, id, userId).error) == 404
  {
  }

  /** Appending a row with the next id, a known user and no clash keeps every invariant. */
  lemma AppendKeepsValid(l: Ledger, users: map<int, string>, row: Booking)
    requires Valid(l)
    requires row.id == l.nextId && row.userId in users
    requires forall u :: u in l.users ==> u in users
    requires forall i :: 0 <= i < |l.bookings| ==>
               !OnDayOf(l.bookings[i], row.userId, row.date) && !Occupies(l.bookings[i], row.court, row.date, row.slot)
    ensures Valid(Ledger(users, l.bookings + [row], l.nextId + 1))
  {
    var bs := l.bookings + [row];
    var n := |l.bookings|;
    forall i, j | 0 <= i < j < |bs|
      ensures bs[i].id < bs[j].id
      ensures !OnDayOf(bs[j], bs[i].userId, bs[i].date)
      ensures !Occupies(bs[j], bs[i].court, bs[i].date, bs[i].slot)
    {
      assert bs[i] == l.bookings[i];
      if j < n {
        assert bs[j] == l.bookings[j];
      }
    }
    forall i | 0 <= i < |bs|
      ensures 1 <= bs[i].id < l.nextId + 1 && bs[i].userId in users
    {
      if i < n {
        assert bs[i] == l.bookings[i];
      }
    }
  }

  /**
   A successful insert keeps every invariant: the id order of the `SERIAL`
   key, the user foreign key, and the two rules the schema does not declare.
   */
  lemma CreatePreservesValid(l: Ledger, req: BookingRequest)
    requires Valid(l)
    requires CreateBooking(l, req).Ok?
    ensures Valid(CreateBooking(l, req).value)
  {
    var l' := CreateBooking(l, req).value;
    var row := Booking(l.nextId, req.userId, req.court, req.date, req.slot);
    assert l'.bookings == l.bookings + [row];
    AppendKeepsValid(l, l'.users, row);
  }

  /** After a successful insert the slot is taken by the new booking, under the user's stored name. */
  lemma CreateTakesSlot(l: Ledger, req: BookingRequest)
    requires CreateBooking(l, req).Ok?
    ensures var st := Availability.SlotState(CreateBooking(l, req).value, req.court, req.date, req.slot);
            !st.isAvailable
            && st.bookingId == Some(l.nextId)
            && st.bookedBy == Some(if req.userId in l.users then l.users[req.userId] else req.firstName)
  {
    var l' := CreateBooking(l, req).value;
    var st := Availability.SlotState(l', req.court, req.date, req.slot);
    var n := |l.bookings|;
    assert Occupies(l'.bookings[n], req.court, req.date, req.slot);
    var i :| 0 <= i < |l'.bookings| && Occupies(l'.bookings[i], req.court, req.date, req.slot)
               && st.bookingId == Some(l'.bookings[i].id)
               && st.bookedBy == Availability.NameOf(l'.users, l'.bookings[i].userId);
    assert i == n;
  }

  /** After a successful insert of a listed court and slot, the board shows that entry taken. */
  lemma CreateShowsOnBoard(l: Ledger, req: BookingRequest, c: int, s: int)
    requires CreateBooking(l, req).Ok?
    requires 0 <= c < |Availability.Courts| && req.court == Availability.Courts[c]
    requires 0 <= s < |TimeSlots.Generate()| && req.slot == TimeSlots.Generate()[s]
    ensures var entry := Availability.GetSlots(CreateBooking(l, req).value, req.date)[Availability.Position(c, s)];
            !entry.isAvailable
            && entry.bookingId == Some(l.nextId)
            && entry.bookedBy == Some(if req.userId in l.users then l.users[req.userId] else req.firstName)
  {
    Availability.BoardEntry(CreateBooking(l, req).value, req.date, c, s);
    CreateTakesSlot(l, req);
  }

  /** Once a user holds a booking on a date, any further request by that user for that date is refused. */
  lemma SameDayRebookRefused(l: Ledger, req: BookingRequest, again: BookingRequest)
    requires CreateBooking(l, req).Ok?
    requires again.userId == req.userId && again.date == req.date
    ensures CreateBooking(CreateBooking(l, req).value, again) == Err(AlreadyBookedThatDay)
  {
    var l' := CreateBooking(l, req).value;
    assert OnDayOf(l'.bookings[|l.bookings|], again.userId, again.date);
  }

  /** Once a slot is booked, another user's request for it is refused as taken. */
  lemma TakenSlotRefused(l: Ledger, req: BookingRequest, other: BookingRequest)
    requires CreateBooking(l, req).Ok?
    requires other.court == req.court && other.date == req.date && other.slot == req.slot
    requires other.userId != req.userId
    requires forall i :: 0 <= i < |l.bookings| ==> !OnDayOf(l.bookings[i], other.userId, other.date)
    ensures CreateBooking(CreateBooking(l, req).value, other) == Err(SlotTaken)
  {
    var l' := CreateBooking(l, req).value;
    var n := |l.bookings|;
    assert Occupies(l'.bookings[n], other.court, other.date, other.slot);
    forall i | 0 <= i < |l'.bookings|
      ensures !OnDayOf(l'.bookings[i], other.userId, other.date)
    {
      if i < n {
        assert l'.bookings[i] == l.bookings[i];
      }
    }
  }

  /** Deleting rows no row of which matches leaves the sequence as it was. */
  lemma {:induction false} DeleteNothing(bs: seq<Booking>, id: int, userId: int)
    requires forall j :: 0 <= j < |bs| ==> !OwnedBy(bs[j], id, userId)
    ensures Delete(bs, id, userId) == bs
    decreases |bs|
  {
    if |bs| > 0 {
      DeleteNothing(bs[1..], id, userId);
      assert bs == [bs[0]] + bs[1..];
    }
  }

  /** A row that does not match is kept in front of what the delete leaves of the rest. */
  lemma DeleteKeepsHead(bs: seq<Booking>, id: int, userId: int)
    requires |bs| > 0 && !OwnedBy(bs[0], id, userId)
    ensures Delete(bs, id, userId) == [bs[0]] + Delete(bs[1..], id, userId)
  {
  }

  /** Removing position `i` commutes with putting the head back in front. */
  lemma RemoveAtCons(bs: seq<Booking>, i: int)
    requires 0 < i < |bs|
    ensures [bs[0]] + (bs[1..][..i - 1] + bs[1..][i..]) == bs[..i] + bs[i + 1..]
  {
    var tail := bs[1..];
    assert [bs[0]] + tail[..i - 1] == bs[..i];
    assert tail[i..] == bs[i + 1..];
  }

  /** When only position `i` matches, the delete removes exactly that row. */
  lemma {:induction false} DeleteOnly(bs: seq<Booking>, id: int, userId: int, i: int)
    requires 0 <= i < |bs| && OwnedBy(bs[i], id, userId)
    requires forall j :: 0 <= j < |bs| && j != i ==> !OwnedBy(bs[j], id, userId)
    ensures Delete(bs, id, userId) == bs[..i] + bs[i + 1..]
    decreases |bs|
  {
    var tail := bs[1..];
    assert forall j :: 0 <= j < |tail| ==> tail[j] == bs[j + 1];
    if i == 0 {
      DeleteNothing(tail, id, userId);
    } else {
      DeleteOnly(tail, id, userId, i - 1);
      DeleteKeepsHead(bs, id, userId);
      RemoveAtCons(bs, i);
    }
  }

  /** Under `Valid`, a successful cancel removes exactly the one booking with that id and owner. */
  lemma CancelRemovesExactlyOne(l: Ledger, id: int, userId: int)
    requires Valid(l)
    requires CancelBooking(l, id, userId).Ok?
    ensures exists i :: 0 <= i < |l.bookings| && OwnedBy(l.bookings[i], id, userId)
              && CancelBooking(l, id, userId).value.bookings == l.bookings[..i] + l.bookings[i + 1..]
  {
    var i :| 0 <= i < |l.bookings| && OwnedBy(l.bookings[i], id, userId);
    DeleteOnly(l.bookings, id, userId, i);
  }

  /** Removing one row keeps every invariant. */
  lemma RemoveAtKeepsValid(l: Ledger, i: int)
    requires Valid(l) && 0 <= i < |l.bookings|
    ensures Valid(l.(bookings := l.bookings[..i] + l.bookings[i + 1..]))
  {
    var bs := l.bookings;
    var r := bs[..i] + bs[i + 1..];
    assert forall j :: 0 <= j < |r| ==> r[j] == bs[if j < i then j else j + 1];
    forall j, k | 0 <= j < k < |r|
      ensures r[j].id < r[k].id
      ensures !OnDayOf(r[k], r[j].userId, r[j].date)
      ensures !Occupies(r[k], r[j].court, r[j].date, r[j].slot)
    {
      var j' := if j < i then j else j + 1;
      var k' := if k < i then k else k + 1;
      assert r[j] == bs[j'] && r[k] == bs[k'] && j' < k';
    }
  }

  /** A successful cancel keeps every invariant. */
  lemma CancelPreservesValid(l: Ledger, id: int, userId: int)
    requires Valid(l)
    requires CancelBooking(l, id, userId).Ok?
    ensures Valid(CancelBooking(l, id, userId).value)
  {
    CancelRemovesExactlyOne(l, id, userId);
    var i :| 0 <= i < |l.bookings| && OwnedBy(l.bookings[i], id, userId)
               && CancelBooking(l, id, userId).value.bookings == l.bookings[..i] + l.bookings[i + 1..];
    RemoveAtKeepsValid(l, i);
    assert CancelBooking(l, id, userId).value == l.(bookings := l.bookings[..i] + l.bookings[i + 1..]);
  }

  /** Cancelling someone else's booking is refused as not found, and nothing is deleted. */
  lemma CancelByOtherUserRefused(l: Ledger, i: int, userId: int)
    requires Valid(l)
    requires 0 <= i < |l.bookings| && l.bookings[i].userId != userId
    ensures CancelBooking(l, l.bookings[i].id, userId) == Err(NotFound)
  {
    forall j | 0 <= j < |l.bookings|
      ensures !OwnedBy(l.bookings[j], l.bookings[i].id, userId)
    {
      if l.bookings[j].id == l.bookings[i].id {
        IdIdentifies(l, i, j);
      }
    }
  }

  /** Under one booking per slot, removing row `i` leaves no row holding its court, date and slot. */
  lemma RemoveAtFrees(bs: seq<Booking>, i: int, r: seq<Booking>)
    requires OnePerSlot(bs) && 0 <= i < |bs|
    requires r == bs[..i] + bs[i + 1..]
    ensures forall j :: 0 <= j < |r| ==> !Occupies(r[j], bs[i].court, bs[i].date, bs[i].slot)
  {
    forall j | 0 <= j < |r|
      ensures !Occupies(r[j], bs[i].court, bs[i].date, bs[i].slot)
    {
      var m := if j < i then j else j + 1;
      assert r[j] == bs[m];
    }
  }

  /** After the owner cancels, the slot the booking held is free again. */
  lemma CancelFreesSlot(l: Ledger, i: int)
    requires Valid(l)
    requires 0 <= i < |l.bookings|
    ensures CancelBooking(l, l.bookings[i].id, l.bookings[i].userId).Ok?
    ensures var b := l.bookings[i];
            Availability.SlotState(CancelBooking(l, b.id, b.userId).value, b.court, b.date, b.slot).isAvailable
  {
    var b := l.bookings[i];
    CancelRemovesExactlyOne(l, b.id, b.userId);
    var l' := CancelBooking(l, b.id, b.userId).value;
    var k :| 0 <= k < |l.bookings| && OwnedBy(l.bookings[k], b.id, b.userId)
               && l'.bookings == l.bookings[..k] + l.bookings[k + 1..];
    IdIdentifies(l, i, k);
    RemoveAtFrees(l.bookings, i, l'.bookings);
  }

  /** Cancelling a booking just made by its owner restores the booking rows as they were. */
  lemma CreateThenCancelRestores(l: Ledger, req: BookingRequest)
    requires Valid(l)
    requires CreateBooking(l, req).Ok?
    ensures CancelBooking(CreateBooking(l, req).value, l.nextId, req.userId).Ok?
    ensures CancelBooking(CreateBooking(l, req).value, l.nextId, req.userId).value.bookings == l.bookings
  {
    var l' := CreateBooking(l, req).value;
    var n := |l.bookings|;
    CreatePreservesValid(l, req);
    assert OwnedBy(l'.bookings[n], l.nextId, req.userId);
    CancelRemovesExactlyOne(l', l.nextId, req.userId);
    var k :| 0 <= k < |l'.bookings| && OwnedBy(l'.bookings[k], l.nextId, req.userId)
               && CancelBooking(l', l.nextId, req.userId).value.bookings == l'.bookings[..k] + l'.bookings[k + 1..];
    IdIdentifies(l', k, n);
  }
}

=== FILE: ledger.dfy ===
/**
 The booking store as an immutable value: the `users` table as a map from
 user id to first name, the `bookings` table as a sequence of rows in
 insertion order, and the counter that hands out booking ids. The schema
 declares the primary key on `id` (a `SERIAL` sequence) and the user foreign
 key, but not the two rules "one booking per user and date" and "one booking
 per court, date and slot". `Valid` states all four facts, and the operations
 must keep it.
 */
module Ledger {

  datatype Option<T> = None | Some(value: T)

  /** One row of the `bookings` table. */
  datatype Booking = Booking(id: int, userId: int, court: string, date: string, slot: string)

  datatype Ledger = Ledger(users: map<int, string>, bookings: seq<Booking>, nextId: int)

  /** A booking request as the client posts it. */
  datatype BookingRequest = BookingRequest(userId: int, firstName: string, court: string, date: string, slot: string)

  /** The domain failures the operations report. */
  datatype Error =
    | AlreadyBookedThatDay  // the user already holds a booking on that date
    | SlotTaken             // the court is already booked at that date and hour
    | NotFound              // no booking with that id belongs to that user

  datatype Result<T> = Ok(value: T) | Err(error: Error)

  /** The HTTP status each failure is reported with: a refused booking is a bad request, a missing one is not found. */
  function StatusCode(e: Error): (code: int)
    ensures code == 400 <==> e.AlreadyBookedThatDay? || e.SlotTaken?
    ensures code == 404 <==> e.NotFound?
  {
    match e
    case AlreadyBookedThatDay => 400
    case SlotTaken => 400
    case NotFound => 404
  }

  /** The store before any request: no users, no bookings, ids start at 1. */
  function Empty(): (l: Ledger)
    ensures Valid(l)
    ensures |l.bookings| == 0 && |l.users| == 0
    ensures l.nextId == 1
  {
    Ledger(map[], [], 1)
  }

  /** Booking `b` holds `court` on `date` at `slot`. */
  predicate Occupies(b: Booking, court: string, date: string, slot: string)
  {
    b.court == court && b.date == date && b.slot == slot
  }

  /** Booking `b` is user `userId`'s booking on `date`. */
  predicate OnDayOf(b: Booking, userId: int, date: string)
  {
    b.userId == userId && b.date == date
  }

  /** Booking `b` has id `id` and belongs to `userId`. */
  predicate OwnedBy(b: Booking, id: int, userId: int)
  {
    b.id == id && b.userId == userId
  }

  /** Ids are positive, below the counter and increasing in insertion order (so distinct). */
  predicate IdsAscending(bs: seq<Booking>, nextId: int)
  {
    1 <= nextId
    && (forall i :: 0 <= i < |bs| ==> 1 <= bs[i].id < nextId)
    && (forall i, j :: 0 <= i < j < |bs| ==> bs[i].id < bs[j].id)
  }

  /** At most one booking per user and date, whatever the court. */
  predicate OnePerUserDay(bs: seq<Booking>)
  {
    forall i, j :: 0 <= i < j < |bs| ==> !OnDayOf(bs[j], bs[i].userId, bs[i].date)
  }

  /** At most one booking per court, date and slot. */
  predicate OnePerSlot(bs: seq<Booking>)
  {
    forall i, j :: 0 <= i < j < |bs| ==> !Occupies(bs[j], bs[i].court, bs[i].date, bs[i].slot)
  }

  /** Every booking refers to a stored user. */
  predicate UsersKnown(l: Ledger)
  {
    forall i :: 0 <= i < |l.bookings| ==> l.bookings[i].userId in l.users
  }

  predicate Valid(l: Ledger)
  {
    IdsAscending(l.bookings, l.nextId)
    && OnePerUserDay(l.bookings)
    && OnePerSlot(l.bookings)
    && UsersKnown(l)
  }

  /** Position of the first element satisfying `p`, as a query returning its first row. */
  function IndexOf<T>(s: seq<T>, p: T -> bool): (r: Option<nat>)
    ensures r.None? <==> forall i :: 0 <= i < |s| ==> !p(s[i])
    ensures r.Some? ==> r.value < |s| && p(s[r.value])
    ensures r.Some? ==> forall i :: 0 <= i < r.value ==> !p(s[i])
  {
    if |s| == 0 then None
    else if p(s[0]) then Some(0)
    else match IndexOf(s[1..], p)
      case None => None
      case Some(k) => Some(k + 1)
  }

  /** Under `Valid`, a booking is identified by its id. */
  lemma IdIdentifies(l: Ledger, i: int, j: int)
    requires Valid(l)
    requires 0 <= i < |l.bookings| && 0 <= j < |l.bookings|
    requires l.bookings[i].id == l.bookings[j].id
    ensures i == j
  {
  }
}

=== FILE: lex.dfy ===
/**
 Lexicographic order on strings, as the booking store compares TEXT columns
 (binary collation: character by character on code points, a proper prefix
 sorts first). Dates `YYYY-MM-DD` and the zero-padded hourly labels are
 compared with this order, both in `date >= today` and in `ORDER BY`.
 */
module Lex {

  /** `a` sorts strictly before `b`. */
  predicate Less(a: string, b: string)
    decreases |a|
  {
    |b| > 0 && (|a| == 0 || a[0] < b[0] || (a[0] == b[0] && Less(a[1..], b[1..])))
  }

  /** `a` sorts before `b` or is equal to it. */
  predicate LessEq(a: string, b: string)
  {
    a == b || Less(a, b)
  }

  lemma {:induction false} Irreflexive(a: string)
    ensures !Less(a, a)
    decreases |a|
  {
    if |a| > 0 {
      Irreflexive(a[1..]);
    }
  }

  lemma {:induction false} Asymmetric(a: string, b: string)
    requires Less(a, b)
    ensures !Less(b, a)
    decreases |a|
  {
    if |a| > 0 && a[0] == b[0] {
      Asymmetric(a[1..], b[1..]);
    }
  }

  lemma {:induction false} Transitive(a: string, b: string, c: string)
    requires Less(a, b) && Less(b, c)
    ensures Less(a, c)
    decreases |a|
  {
    if |a| > 0 && a[0] == b[0] && b[0] == c[0] {
      Transitive(a[1..], b[1..], c[1..]);
    }
  }

  /** Any two different strings are ordered one way or the other. */
  lemma {:induction false} Total(a: string, b: string)
    requires a != b
    ensures Less(a, b) || Less(b, a)
    decreases |a|
  {
    if |a| > 0 && |b| > 0 && a[0] == b[0] {
      assert a == [a[0]] + a[1..] && b == [b[0]] + b[1..];
      Total(a[1..], b[1..]);
    }
  }

  /** Two strings that differ within an equally long prefix are ordered by that prefix alone. */
  lemma {:induction false} PrefixDecides(p: string, q: string, s: string, t: string)
    requires |p| == |q| && Less(p, q)
    ensures Less(p + s, q + t)
    decreases |p|
  {
    if p[0] == q[0] {
      assert (p + s)[1..] == p[1..] + s;
      assert (q + t)[1..] == q[1..] + t;
      PrefixDecides(p[1..], q[1..], s, t);
    }
  }

  lemma LessEqTransitive(a: string, b: string, c: string)
    requires LessEq(a, b) && LessEq(b, c)
    ensures LessEq(a, c)
  {
    if a != b && b != c {
      Transitive(a, b, c);
    }
  }
}

=== FILE: my_bookings.dfy ===
/**
 The read behind `GET /api/my-bookings`: a user's bookings dated today or
 later, ordered by date and then by time slot. The current date is a
 parameter rather than a clock reading.
 */
module MyBookings {
  import opened Ledger
  import Lex

  /** A listed booking: the selected columns `id, court_type, date, time_slot`. */
  datatype BookingView = BookingView(id: int, court: string, date: string, slot: string)

  function View(b: Booking): BookingView
  {
    BookingView(b.id, b.court, b.date, b.slot)
  }

  /** `user_id = ? AND date >= today`, with dates compared as text. */
  predicate IsUpcoming(b: Booking, userId: int, today: string)
  {
    b.userId == userId && Lex.LessEq(today, b.date)
  }

  /** The `ORDER BY date, time_slot` order. */
  predicate KeyLe(a: BookingView, b: BookingView)
  {
    Lex.Less(a.date, b.date) || (a.date == b.date && Lex.LessEq(a.slot, b.slot))
  }

  predicate Sorted(s: seq<BookingView>)
  {
    forall i, j :: 0 <= i < j < |s| ==> KeyLe(s[i], s[j])
  }

  /** No two listed bookings share a date. */
  predicate DistinctDates(s: seq<BookingView>)
  {
    forall i, j :: 0 <= i < j < |s| ==> s[i].date != s[j].date
  }

  lemma KeyTotal(a: BookingView, b: BookingView)
    ensures KeyLe(a, b) || KeyLe(b, a)
  {
    if a.date != b.date {
      Lex.Total(a.date, b.date);
    } else if a.slot != b.slot {
      Lex.Total(a.slot, b.slot);
    }
  }

  lemma KeyTransitive(a: BookingView, b: BookingView, c: BookingView)
    requires KeyLe(a, b) && KeyLe(b, c)
    ensures KeyLe(a, c)
  {
    if a.date != b.date && b.date != c.date {
      Lex.Transitive(a.date, b.date, c.date);
    } else if a.date == b.date && b.date == c.date {
      Lex.Irreflexive(a.date);
      Lex.LessEqTransitive(a.slot, b.slot, c.slot);
    }
  }

  /** Two views tie in the (date, slot) order only when they have the same date and the same slot. */
  lemma KeyAntisymmetric(a: BookingView, b: BookingView)
    requires KeyLe(a, b) && KeyLe(b, a)
    ensures a.date == b.date && a.slot == b.slot
  {
    if a.date != b.date {
      Lex.Asymmetric(a.date, b.date);
    } else {
      Lex.Irreflexive(a.date);
      if a.slot != b.slot {
        Lex.Asymmetric(a.slot, b.slot);
      }
    }
  }

  /** The selected rows, projected to their listed columns, in store order. */
  function Upcoming(bs: seq<Booking>, userId: int, today: string): (r: seq<BookingView>)
    ensures forall v :: v in r <==>
              exists i :: 0 <= i < |bs| && IsUpcoming(bs[i], userId, today) && View(bs[i]) == v
    ensures OnePerUserDay(bs) ==> DistinctDates(r)
  {
    if |bs| == 0 then []
    else
      var rest := Upcoming(bs[1..], userId, today);
      assert forall i :: 1 <= i < |bs| ==> bs[i] == bs[1..][i - 1];
      assert OnePerUserDay(bs) ==> OnePerUserDay(bs[1..]);
      if IsUpcoming(bs[0], userId, today) then
        assert OnePerUserDay(bs) ==> forall v :: v in rest ==> v.date != bs[0].date by {
          if OnePerUserDay(bs) {
            forall v | v in rest
              ensures v.date != bs[0].date
            {
              var i :| 0 <= i < |bs[1..]| && IsUpcoming(bs[1..][i], userId, today) && View(bs[1..][i]) == v;
              assert !OnDayOf(bs[i + 1], bs[0].userId, bs[0].date);
            }
          }
        }
        ConsDistinct(View(bs[0]), rest);
        [View(bs[0])] + rest
      else rest
  }

  /** Prepending an element no greater than any other keeps a sequence sorted. */
  lemma ConsSorted(h: BookingView, s: seq<BookingView>)
    requires Sorted(s)
    requires forall y :: y in s ==> KeyLe(h, y)
    ensures Sorted([h] + s)
  {
    var r := [h] + s;
    forall i, j | 0 <= i < j < |r|
      ensures KeyLe(r[i], r[j])
    {
      assert r[j] == s[j - 1];
      if i > 0 {
        assert r[i] == s[i - 1];
      }
    }
  }

  /** Prepending an element with a fresh date keeps the dates distinct. */
  lemma ConsDistinct(h: BookingView, s: seq<BookingView>)
    ensures DistinctDates(s) && (forall y :: y in s ==> y.date != h.date) ==> DistinctDates([h] + s)
  {
    if DistinctDates(s) && (forall y :: y in s ==> y.date != h.date) {
      var r := [h] + s;
      forall i, j | 0 <= i < j < |r|
        ensures r[i].date != r[j].date
      {
        assert r[j] == s[j - 1];
        if i > 0 {
          assert r[i] == s[i - 1];
        }
      }
    }
  }

  /** The tail of a sorted sequence is sorted and bounded below by the head. */
  lemma TailSorted(s: seq<BookingView>)
    requires |s| > 0 && Sorted(s)
    ensures Sorted(s[1..])
    ensures forall y :: y in s[1..] ==> KeyLe(s[0], y)
  {
    assert forall i :: 0 <= i < |s[1..]| ==> s[1..][i] == s[i + 1];
  }

  /** The tail of a sequence with distinct dates has distinct dates, none equal to the head's. */
  lemma TailDistinct(s: seq<BookingView>)
    requires |s| > 0
    ensures DistinctDates(s) ==> DistinctDates(s[1..])
    ensures DistinctDates(s) ==> forall y :: y in s[1..] ==> y.date != s[0].date
  {
    assert forall i :: 0 <= i < |s[1..]| ==> s[1..][i] == s[i + 1];
  }

  /** Inserting `x` into a sorted sequence keeps it sorted and adds exactly `x`. */
  function Insert(x: BookingView, s: seq<BookingView>): (r: seq<BookingView>)
    requires Sorted(s)
    ensures Sorted(r)
    ensures multiset(r) == multiset(s) + multiset{x}
    ensures DistinctDates(s) && (forall y :: y in s ==> y.date != x.date) ==> DistinctDates(r)
  {
    if |s| == 0 then [x]
    else if KeyLe(x, s[0]) then
      assert forall y :: y in s ==> KeyLe(x, y) by {
        forall y | y in s
          ensures KeyLe(x, y)
        {
          if y != s[0] {
            KeyTransitive(x, s[0], y);
          }
        }
      }
      ConsSorted(x, s);
      ConsDistinct(x, s);
      [x] + s
    else
      KeyTotal(x, s[0]);
      assert s == [s[0]] + s[1..];
      TailSorted(s);
      TailDistinct(s);
      var rest := Insert(x, s[1..]);
      assert forall y :: y in rest ==> y == x || y in s[1..] by {
        forall y | y in rest
          ensures y == x || y in s[1..]
        {
          assert y in multiset(rest);
        }
      }
      ConsSorted(s[0], rest);
      ConsDistinct(s[0], rest);
      [s[0]] + rest
  }

  /** Insertion sort by (date, time slot). */
  function Sort(s: seq<BookingView>): (r: seq<BookingView>)
    ensures Sorted(r)
    ensures multiset(r) == multiset(s)
    ensures DistinctDates(s) ==> DistinctDates(r)
  {
    if |s| == 0 then []
    else
      var rest := Sort(s[1..]);
      assert s == [s[0]] + s[1..];
      assert forall y :: y in rest ==> y in s[1..] by {
        forall y | y in rest
          ensures y in s[1..]
        {
          assert y in multiset(rest);
        }
      }
      TailDistinct(s);
      Insert(s[0], rest)
  }

  /**
   A user's upcoming bookings: exactly the bookings of `userId` dated on or
   after `today`, as a permutation of the selected rows, ordered by date and
   then slot; under `Valid` the dates are strictly increasing.
   */
  function GetMyBookings(l: Ledger, userId: int, today: string): (r: seq<BookingView>)
    ensures Sorted(r)
    ensures multiset(r) == multiset(Upcoming(l.bookings, userId, today))
    ensures forall v :: v in r <==>
              exists i :: 0 <= i < |l.bookings| && IsUpcoming(l.bookings[i], userId, today)
                && View(l.bookings[i]) == v
    ensures Valid(l) ==> forall i, j :: 0 <= i < j < |r| ==> Lex.Less(r[i].date, r[j].date)
  {
    var selected := Upcoming(l.bookings, userId, today);
    var r := Sort(selected);
    assert forall v :: v in r <==> v in selected by {
      forall v
        ensures v in r <==> v in selected
      {
        assert v in r <==> v in multiset(r);
      }
    }
    r
  }

  /** Under `Valid`, a booking is listed exactly when it is the user's and not dated before today. */
  lemma GetMyBookingsExact(l: Ledger, userId: int, today: string)
    requires Valid(l)
    ensures forall i :: 0 <= i < |l.bookings| ==>
              (View(l.bookings[i]) in GetMyBookings(l, userId, today) <==> IsUpcoming(l.bookings[i], userId, today))
  {
    var r := GetMyBookings(l, userId, today);
    forall i | 0 <= i < |l.bookings| && View(l.bookings[i]) in r
      ensures IsUpcoming(l.bookings[i], userId, today)
    {
      var j :| 0 <= j < |l.bookings| && IsUpcoming(l.bookings[j], userId, today)
                 && View(l.bookings[j]) == View(l.bookings[i]);
      IdIdentifies(l, i, j);
    }
  }
}

=== FILE: scenario.dfy ===
/**
 A concrete run against the empty store: book, look at the board, cancel
 as the wrong user and as the owner, look at the board again.
 */
module Scenario {
  import opened Ledger
  import Availability
  import Bookings
  import TimeSlots

  const Date := "2024-06-01"
  /** User 1 asks for the rubber court at 09:00-10:00, the fourth slot of the day. */
  const Request := BookingRequest(1, "Anna", "rubber", Date, "09:00-10:00")

  /** The fourth generated slot is 09:00-10:00. */
  lemma FourthSlot()
    ensures TimeSlots.Generate()[3] == "09:00-10:00"
  {
    assert TimeSlots.Digit(0) == '0' && TimeSlots.Digit(9) == '9' && TimeSlots.Digit(1) == '1';
    assert TimeSlots.Pad2(9) == "09" && TimeSlots.Pad2(10) == "10";
    assert TimeSlots.Label(9) == "09:00-10:00";
  }

  /** After the booking, the board for that date shows 35 free entries and the one taken by user 1. */
  lemma BoardAfterBooking()
    ensures Bookings.CreateBooking(Empty(), Request).Ok?
    ensures var board := Availability.GetSlots(Bookings.CreateBooking(Empty(), Request).value, Date);
            (forall k :: 0 <= k < |board| ==> (board[k].isAvailable <==> k != 3))
            && board[3].bookedBy == Some("Anna") && board[3].bookingId == Some(1)
  {
    var l1 := Bookings.CreateBooking(Empty(), Request).value;
    FourthSlot();
    Bookings.CreateShowsOnBoard(Empty(), Request, 0, 3);
    Availability.SingleBookingBoard(l1, 0, 3);
  }

  /** Cancelling as another user fails; cancelling as the owner frees every entry of the board. */
  lemma CancelAfterBooking()
    ensures Bookings.CreateBooking(Empty(), Request).Ok?
    ensures var l1 := Bookings.CreateBooking(Empty(), Request).value;
            Bookings.CancelBooking(l1, 1, 2) == Err(NotFound)
    ensures var l1 := Bookings.CreateBooking(Empty(), Request).value;
            var l2 := Bookings.CancelBooking(l1, 1, 1);
            l2.Ok? && forall k :: 0 <= k < 36 ==> Availability.GetSlots(l2.value, Date)[k].isAvailable
  {
    var l1 := Bookings.CreateBooking(Empty(), Request).value;
    assert l1.bookings == [Booking(1, 1, "rubber", Date, "09:00-10:00")];
    Bookings.CreatePreservesValid(Empty(), Request);
    Bookings.CancelByOtherUserRefused(l1, 0, 2);
    Bookings.CreateThenCancelRestores(Empty(), Request);
  }

  /**
   The insert does not check court or slot against the catalogue: a booking
   for an unlisted court is stored, never appears on the board, and still
   uses up its user's day.
   */
  lemma UnlistedCourtAccepted()
    ensures var req := BookingRequest(2, "Boris", "clay", Date, "25:00-26:00");
            var l1 := Bookings.CreateBooking(Empty(), req);
            l1.Ok?
            && (forall k :: 0 <= k < 36 ==> Availability.GetSlots(l1.value, Date)[k].isAvailable)
            && Bookings.CreateBooking(l1.value, BookingRequest(2, "Boris", "rubber", Date, "09:00-10:00"))
               == Err(AlreadyBookedThatDay)
  {
    var req := BookingRequest(2, "Boris", "clay", Date, "25:00-26:00");
    var l1 := Bookings.CreateBooking(Empty(), req).value;
    assert l1.bookings == [Booking(1, 2, "clay", Date, "25:00-26:00")];
    var board := Availability.GetSlots(l1, Date);
    forall k | 0 <= k < 36
      ensures board[k].isAvailable
    {
      assert board[k].court == "rubber" || board[k].court == "hard";
    }
    assert OnDayOf(l1.bookings[0], 2, Date);
  }
}

=== FILE: time_slots.dfy ===
/**
 The fixed list of bookable hours: one label `"HH:00-HH:00"` per hour from
 06:00 up to midnight, each hour written with two zero-padded digits.
 */
module TimeSlots {
  import Lex

  /** First hour of the day that can be booked. */
  const FirstHour := 6
  /** The hour loop stops before this value, so the last slot ends at 24:00. */
  const EndHour := 24
  /** Number of slots a court offers per day. */
  const SlotCount := EndHour - FirstHour

  function Digit(d: int): char
    requires 0 <= d <= 9
  {
    ('0' as int + d) as char
  }

  predicate IsDigit(c: char)
  {
    '0' <= c <= '9'
  }

  /** Value of a decimal digit character. */
  function DigitValue(c: char): int
  {
    c as int - '0' as int
  }

  /** An hour written with exactly two digits, zero-padded (`{hour:02d}`). */
  function Pad2(n: int): (r: string)
    requires 0 <= n <= 99
    ensures |r| == 2 && IsDigit(r[0]) && IsDigit(r[1])
    ensures 10 * DigitValue(r[0]) + DigitValue(r[1]) == n
  {
    [Digit(n / 10), Digit(n % 10)]
  }

  /** The label of the slot starting at hour `h`: `"{h:02d}:00-{h+1:02d}:00"`. */
  function Label(h: int): string
    requires 0 <= h <= 98
  {
    Pad2(h) + ":00-" + Pad2(h + 1) + ":00"
  }

  /** Start hour read back from a label's first two characters. */
  function StartHourOf(s: string): int
    requires |s| >= 2
  {
    10 * DigitValue(s[0]) + DigitValue(s[1])
  }

  /** End hour read back from a label's characters 6 and 7. */
  function EndHourOf(s: string): int
    requires |s| >= 8
  {
    10 * DigitValue(s[6]) + DigitValue(s[7])
  }

  /** The labels of the hours `h`, `h + 1`, ..., `EndHour - 1`, in that order. */
  function SlotsFrom(h: int): (r: seq<string>)
    requires FirstHour <= h <= EndHour
    ensures |r| == EndHour - h
    ensures forall i :: 0 <= i < |r| ==> r[i] == Label(h + i)
    decreases EndHour - h
  {
    if h == EndHour then [] else [Label(h)] + SlotsFrom(h + 1)
  }

  /** The generated slot list: 18 labels, label `i` covering hour `6 + i`. */
  function Generate(): (r: seq<string>)
    ensures |r| == SlotCount == 18
    ensures forall i :: 0 <= i < |r| ==> r[i] == Label(FirstHour + i)
  {
    SlotsFrom(FirstHour)
  }

  /** Every label has the shape `"HH:00-HH:00"`, and both hours can be read back from it. */
  lemma LabelRoundTrip(h: int)
    requires 0 <= h <= 98
    ensures |Label(h)| == 11
    ensures IsDigit(Label(h)[0]) && IsDigit(Label(h)[1]) && IsDigit(Label(h)[6]) && IsDigit(Label(h)[7])
    ensures Label(h)[2..6] == ":00-" && Label(h)[8..] == ":00"
    ensures StartHourOf(Label(h)) == h
    ensures EndHourOf(Label(h)) == h + 1
  {
  }

  /** Zero-padding makes the text order of labels agree with the order of their hours. */
  lemma LabelsOrdered(h: int, k: int)
    requires 0 <= h < k <= 98
    ensures Lex.Less(Label(h), Label(k))
  {
    assert Lex.Less(Pad2(h), Pad2(k)) by {
      if h / 10 == k / 10 {
        assert Pad2(h)[1..] == [Digit(h % 10)];
        assert Pad2(k)[1..] == [Digit(k % 10)];
      }
    }
    var s := ":00-" + Pad2(h + 1) + ":00";
    var t := ":00-" + Pad2(k + 1) + ":00";
    assert Label(h) == Pad2(h) + s;
    assert Label(k) == Pad2(k) + t;
    Lex.PrefixDecides(Pad2(h), Pad2(k), s, t);
  }

  /** The generated labels are strictly increasing, hence pairwise distinct. */
  lemma GenerateStrictlyIncreasing()
    ensures forall i, j :: 0 <= i < j < |Generate()| ==> Lex.Less(Generate()[i], Generate()[j])
    ensures forall i, j :: 0 <= i < |Generate()| && 0 <= j < |Generate()| && i != j ==>
              Generate()[i] != Generate()[j]
  {
    var r := Generate();
    forall i, j | 0 <= i < j < |r|
      ensures Lex.Less(r[i], r[j])
    {
      LabelsOrdered(FirstHour + i, FirstHour + j);
    }
    forall i, j | 0 <= i < |r| && 0 <= j < |r| && i != j
      ensures r[i] != r[j]
    {
      if i < j {
        Lex.Irreflexive(r[i]);
      } else {
        Lex.Irreflexive(r[j]);
      }
    }
  }

  /** Two generated labels are equal only at the same position. */
  lemma GenerateInjective(i: int, j: int)
    requires 0 <= i < SlotCount && 0 <= j < SlotCount
    requires Generate()[i] == Generate()[j]
    ensures i == j
  {
    LabelRoundTrip(FirstHour + i);
    LabelRoundTrip(FirstHour + j);
  }

  /** The first slot label. */
  lemma FirstLabel()
    ensures Label(FirstHour) == "06:00-07:00"
  {
    assert Digit(0) == '0' && Digit(6) == '6' && Digit(7) == '7';
    assert Pad2(6) == "06" && Pad2(7) == "07";
  }

  /** The last slot label. */
  lemma LastLabel()
    ensures Label(EndHour - 1) == "23:00-24:00"
  {
    assert Digit(2) == '2' && Digit(3) == '3' && Digit(4) == '4';
    assert Pad2(23) == "23" && Pad2(24) == "24";
  }

  /** The list runs from `"06:00-07:00"` to `"23:00-24:00"`. */
  lemma GenerateEnds()
    ensures Generate()[0] == "06:00-07:00"
    ensures Generate()[SlotCount - 1] == "23:00-24:00"
  {
    FirstLabel();
    LastLabel();
  }
}
